=== FILE: README.md ===
# Moktamel coming-soon page: a model of its script

The page script (`script.js`) runs one `DOMContentLoaded` handler. The
handler drives four small state machines:

- **The language presenter.** It picks the starting language from local
  storage (Arabic by default) and presents it. Presenting sets the `dir` and
  `lang` attributes of the document root and marks the matching `.lang-btn`
  as `active`. It also copies each element's `data-<lang>` text into the
  element, when that text is non-empty, and sets the document title. The
  attribute lookup lower-cases ASCII capitals in the code, while the root,
  the title and the buttons compare the code exactly. A click
  on a language button presents the button's `data-lang` and stores it.
- **The typewriter.** It clears the description and types it back one
  character per timer callback. After every language change, a timer
  restarts it from whatever the description then holds. That is the
  translated text, plus any characters a still-pending step of the old run
  appended to it. Without a translation, it is the text typed so far.
- **The progress simulator.** Every few hundred milliseconds it adds a
  random amount below 2 to the progress, until the progress reaches 75. It
  renders `min(progress, 75)` as the fill width. With probability 0.1 it
  advances the status message, up to the fifth message of the current
  language.
- **The scroll throttle.** It lets a scroll event through only when more
  than 16 ms have passed since the last one it let through. An event it lets
  through requests an animation frame unless one is outstanding.

The model has six modules:

- `Wrappers`: an `Option` type.
- `Language`, `Typewriter`, `ProgressSim` and `ScrollThrottle`: the four
  machines as pure functions, each with the lemmas about it.
- `ComingSoon`: the class `Page`. Its fields are the handler's closure
  variables and the parts of the document the handler writes. Its methods
  are the handler itself, `updateLanguage` and its wrapper, the click
  listener, and every timer, scroll and animation-frame callback. Each
  method is proved against the pure function for its machine.

Timers are modelled as counters of pending callbacks. A callback method
requires one to be pending. The two `Math.random()` draws of a progress tick
and the `Date.now()` of a scroll event are parameters.

Points where the model follows the code rather than what the page
evidently means to do:

- Typewriter callbacks carry no run token and are never cancelled. A step
  left over from the previous run can therefore append a stale character.
  That character then becomes part of the next target
  (`Typewriter.StaleStepBeforeRestart`). The typing invariant in
  `Page.TypingValid` holds only while no restart is pending.
- Two language changes less than 100 ms apart, once typing has finished,
  blank the description. The second restart copies the description after
  the first restart has cleared it, so the target becomes empty. The
  description then stays blank until the next language change
  (`Typewriter.DoubleRestartBlanks`). While typing is under way, the second
  restart keeps only what was typed between the two restarts
  (`Typewriter.StepsBetweenRestartsKeepTyped`).
- A restart of an unfinished run keeps only the typed prefix when the
  description was not overwritten by a translation
  (`Typewriter.UntranslatedRestartTruncates`).
- When the buttons carry `en` and `ar`, a language code with capitals, such
  as `AR`, gives the Arabic texts in a left-to-right page with the English
  title and no active button. A button whose `data-lang` is exactly `AR`
  would still be marked active
  (`Language.CapitalisedCodeMixesLanguages`).
- Progress is compared against 75 before it is increased. It can therefore
  end anywhere below 77, while the fill width never exceeds 75.
- The preference is written to storage only by a click. The starting
  language is never written back.

## Model

| member | source | states |
|---|---|---|
| Language.InitialLang | script.js:9 | a stored non-empty value is the starting language; a missing or empty one gives Arabic; the result is never empty |
| Language.RootFor | script.js:23-52 | the root is right-to-left exactly for Arabic and left-to-right for every other code; the root `lang` is `ar` for right-to-left and `en` otherwise; the title is the Arabic title exactly for Arabic and the English title for every other code |
| Language.Activate | script.js:33-35 | a button keeps its `data-lang`; it is active exactly when its `data-lang` equals the presented language |
| Language.PresentButtons | script.js:32-37 | every button is kept in place with its `data-lang`, and exactly the matching buttons are active |
| Language.MarkedIffFixed | script.js:32-37 | buttons already showing a language are exactly those that marking for it leaves unchanged |
| Language.AsciiLower | script.js:41 | the lower-cased code has the same length and no ASCII capitals; capitals move to their lower-case letter and every other character is kept |
| Language.AsciiLowerFixed | script.js:41 | lower-casing twice gives what lower-casing once gives, and a code without capitals is unchanged |
| Language.Translate | script.js:40-45 | an element takes its `data-<lang>` text, looked up under the lower-cased code, when that text is present and non-empty; otherwise it keeps its text; its attributes never change |
| Language.CapitalisedCodeMixesLanguages | script.js:21-53 | with the code `AR` the texts are the Arabic ones, while the root and title are the English ones and no `en`/`ar` button is active |
| Language.TranslateIfListed | script.js:6 | an element found by class is translated exactly when it carries an English or an Arabic text attribute, and is otherwise left as it is |
| Language.ListedOnlyMattersForOtherCodes | script.js:6 | for `en` and `ar` translating only listed elements is the same as translating every element; for another code an unlisted element keeps its text |
| Language.PresentElements | script.js:40-45 | each element, position by position, is translated as above |
| Language.Present | script.js:21-53 | presenting sets the root and title for the language, marks the buttons, translates the collected elements, and translates the description and the progress label when they are listed |
| Language.PresentButtonsIdempotent | script.js:32-37 | marking the buttons twice for one language gives what marking them once gives |
| Language.PresentElementsIdempotent | script.js:40-45 | translating the elements twice to one language gives what translating them once gives |
| Language.TranslateIdempotent | script.js:40-45 | translating an element twice to one language gives what translating it once gives |
| Language.TranslateIfListedIdempotent | script.js:6-45 | the same holds for the description and the progress label, which are visited only when listed |
| Language.PresentIdempotent | script.js:21-53 | presenting the same language twice leaves the root, title, buttons, elements, description and progress label as presenting it once |
| Language.PresentForgetsActive | script.js:32-37 | after presenting, the buttons do not depend on which ones were active before |
| Language.PresentActiveExclusive | script.js:32-37 | with distinct `data-lang` values, at most one button is active after presenting |
| Typewriter.Step | script.js:170-176 | an unfinished run appends the target's next character and moves on by one; a finished run is unchanged; a shown prefix of the target stays a prefix |
| Typewriter.Restart | script.js:179-184 | the text shown becomes the new target, the description is cleared and the index is reset |
| Typewriter.StepsReveal | script.js:170-176 | after n callbacks a run shows the first `index + n` characters of its target, capped at the whole target |
| Typewriter.RunCompletes | script.js:170-184 | a restarted run shows its whole target after exactly as many callbacks as the target has characters, and stops then and not before |
| Typewriter.RunExtends | script.js:170-176 | each callback of an unfinished run extends the shown text by exactly the target's next character |
| Typewriter.StaleStepBeforeRestart | script.js:170-195 | a callback still pending when the description is overwritten appends the old target's character, and the restart retypes it |
| Typewriter.FinishedStaysPut | script.js:170-176 | a finished run is unchanged by any number of callbacks |
| Typewriter.DoubleRestartBlanks | script.js:179-195 | two restarts with no callback between them leave an empty target, and the description stays blank under every later callback |
| Typewriter.StepsBetweenRestartsKeepTyped | script.js:170-184 | with k callbacks between two restarts, the second restart's target is the first k characters of the first restart's target |
| Typewriter.UntranslatedRestartTruncates | script.js:179-184 | restarting an unfinished run whose description was not overwritten makes the typed prefix the target, which is shorter than the old one |
| ProgressSim.Messages | script.js:126-141 | each supported language has exactly five status messages |
| ProgressSim.Tick | script.js:146-159 | below 75 a tick adds twice the first draw and sets the fill to the capped value; it advances the message exactly when the second draw is below 0.1 and a later message exists, showing the message of the current language; at or above 75 it changes nothing; validity is preserved |
| ProgressSim.RunBounded | script.js:146-162 | over any sequence of ticks the state stays valid, progress never decreases, the index grows by at most one per tick, and a finished simulator never changes |
| ProgressSim.LanguageSwitchKeepsProgress | script.js:146-159 | for every tick, progress, fill width and index do not depend on the language; a message advance shows the message of the language current at that tick |
| ScrollThrottle.UpdateAnimations | script.js:237-246 | a frame is requested and `ticking` set only when no frame is outstanding; at most one frame is ever outstanding |
| ScrollThrottle.OnScroll | script.js:250-256 | an event more than 16 ms after the last accepted one is accepted and may request a frame; any other event changes nothing |
| ScrollThrottle.OnFrame | script.js:240-243 | the frame callback clears `ticking` and consumes the outstanding frame |
| ScrollThrottle.NoneWithinGap | script.js:250-256 | every event no more than 16 ms after the last accepted one is dropped |
| ScrollThrottle.AtMostOnePerWindow | script.js:250-256 | of any burst of scroll events within one 16 ms window, at most one is let through |
| ComingSoon.Page.constructor | script.js:4-9 | the page as parsed: its buttons, its collected elements (each carrying an English or an Arabic text), the stored preference, the starting language, and every variable at its declared initial value |
| ComingSoon.Page.ContentLoaded | script.js:9-187 | the handler presents the starting language without scheduling a typing restart; it sets the first progress timer; the translated description becomes the typing target and is cleared; one typing timer is set; the page invariant holds from then on |
| ComingSoon.Page.PresentCurrent | script.js:10 | presenting the starting language leaves the root, the buttons and the stored value all agreeing with it |
| ComingSoon.Page.StartTimers | script.js:162-187 | the first progress timer is set and the typewriter starts on the description, with the progress and typing invariants established |
| ComingSoon.Page.StartTypewriter | script.js:165-187 | the description's text becomes the target, the description is cleared, and one typing timer is added; the typing invariant holds |
| ComingSoon.Page.UpdateLanguage | script.js:21-53 | the root, buttons, elements, description, label and title end up exactly as `Language.Present` gives them, so calling it twice with one language leaves the page as calling it once (`Language.PresentIdempotent`) |
| ComingSoon.Page.MarkActive | script.js:32-37 | the button array ends as `PresentButtons` of its old contents |
| ComingSoon.Page.TranslateTexts | script.js:6-45 | the element array ends as `PresentElements` of its old contents; the description and the label are translated only when they carry an English or an Arabic text attribute |
| ComingSoon.Page.SwitchLanguage | script.js:190-195 | the wrapper presents the language, makes it current and adds one pending typing restart; the invariant survives unless storage holds another language |
| ComingSoon.Page.Click | script.js:9-19 | a click presents and stores the button's `data-lang`, adds one pending typing restart, and keeps the page invariant; a non-empty chosen code is the language the next visit starts in |
| ComingSoon.Page.TypeStep | script.js:170-176 | the callback performs `Typewriter.Step`, re-arms itself exactly when the run continues, and keeps the typing invariant |
| ComingSoon.Page.RestartTyping | script.js:179-184 | the callback performs `Typewriter.Restart`, consumes one pending restart and sets one typing timer |
| ComingSoon.Page.ProgressTick | script.js:146-159 | the callback performs `ProgressSim.Tick` in the current language, re-arms itself exactly when progress was below 75, and keeps the progress invariant |
| ComingSoon.Page.Scroll | script.js:250-256 | the listener performs `ScrollThrottle.OnScroll` and keeps at most one frame outstanding |
| ComingSoon.Page.UpdateAnimations | script.js:237-246 | performs `ScrollThrottle.UpdateAnimations` on the page's throttle state |
| ComingSoon.Page.AnimationFrame | script.js:240-243 | the frame callback performs `ScrollThrottle.OnFrame` and keeps the throttle invariant |

## Left out

- The mouse parallax (script.js:60-71) and the `IntersectionObserver` reveal (script.js:198-213). They only set element styles, and no state of the four machines depends on them.
- The click handler on social links (script.js:75-119). It cancels the link's navigation, so a social link never leaves the page. It also appends a ripple `span` to the link and removes it 600 ms later, and it adds the ripple keyframes to the document head. No state of the four machines depends on it.
- The keyboard handler (script.js:216-223). Enter or Space on a focused social link clicks it, which starts that link's ripple. It touches no state of the four machines.
- The `load` handler (script.js:226-232), the reduced-motion check (script.js:259-270) and the service-worker registration (script.js:274-284). These are browser I/O with no state the model observes.
- Timer delays and the order in which timers fire. Pending callbacks are counted, and any pending callback may run next. The random re-arm delay of a progress tick (script.js:157) is not modelled.
- `Math.random()` draws and `Date.now()` are method parameters. A draw is any real in [0, 1).
- JavaScript numbers are modelled as exact reals (progress) and unbounded integers (times). Floating-point rounding is not captured.
- Strings are sequences of code points. `textContent.length` and `charAt` count UTF-16 units, so a character outside the Basic Multilingual Plane is typed in two steps by the page and in one by the model.
- A `.lang-btn` without a `data-lang` (where `getAttribute` returns null) is not modelled. Every button carries a string.
- Storage failures (a throwing `localStorage`) are not modelled. Storage is a field holding an optional string.
- The markup's own `dir`, `lang`, title and fill width before the handler runs are not modelled. The constructor sets them to empty or none, and the handler overwrites all of them except the fill.
- Translatable elements are assumed not to be nested in one another. Setting an outer element's text replaces its children, so a nested element would be detached from the page while the presenter still writes to it.
- The page is assumed to contain the description, the progress label and the progress fill. Without the description the handler throws while reading it (script.js:166). The language wrapper and the scroll listener are then never installed, so a click presents without changing the current language. Without the fill the first progress tick throws (script.js:149).
- ComingSoon.Page.ProgressTick: requires the current language to be `en` or `ar`. For any other code (a stored or `data-lang` value outside the two), a tick whose second draw is at least 0.1 still advances progress, sets the fill and re-arms. The message lookup runs only when that draw is below 0.1. Such a tick updates progress and fill first and then throws, so nothing re-arms and the simulator stops for good below 77. Neither case is modelled.
- ComingSoon.Page.TypeStep, ComingSoon.Page.RestartTyping, ComingSoon.Page.ProgressTick, ComingSoon.Page.Scroll and ComingSoon.Page.AnimationFrame: each requires and ensures only the invariant of its own machine, not the whole `Page.Valid`. Their `modifies` clauses show that the other machines' state is left as it was.
- ComingSoon.Page.SwitchLanguage: ensures the whole page invariant only when storage holds nothing usable or holds the new language. `Click` writes storage right after and restores the invariant.
- ProgressSim.Messages: states only the count of messages. The message texts are the constants `EnglishMessages` and `ArabicMessages`, and `Tick` states which of them it shows.

=== FILE: language.dfy ===
/**
 * The language presenter of the coming-soon page, as pure specification
 * functions: the initial choice of language, the root attributes and title,
 * the language buttons and the translatable elements.
 */
module Language {
  import opened Wrappers

  /** The language shown when nothing usable is stored. */
  const DefaultLang: string := "ar"
  const ArabicTitle: string := "مكتمل - قريباً"
  const EnglishTitle: string := "Moktamel - Coming Soon"

  /** The `dir` and `lang` attributes of the document root, and the document title. */
  datatype RootAttrs = RootAttrs(dir: string, lang: string, title: string)

  /** A `.lang-btn`: its `data-lang` and whether it carries the `active` class. */
  datatype LangButton = LangButton(lang: string, active: bool)

  /**
   * A translatable element: its `data-<code>` attributes, keyed by `<code>`,
   * and its current text content. The HTML parser lower-cases attribute
   * names, so every key is free of ASCII capitals.
   */
  datatype Element = Element(variants: map<string, string>, text: string)

  /**
   * The part of the page the presenter writes: the root and title, the
   * buttons, the collected elements, and the description and progress label,
   * which the page also holds by class.
   */
  datatype Document = Document(root: RootAttrs, buttons: seq<LangButton>, elements: seq<Element>,
                               description: Element, progressLabel: Element)

  /** A stored value is used when it is present and non-empty (a falsy empty string is skipped). */
  predicate Usable(stored: Option<string>)
  {
    stored.Some? && stored.value != ""
  }

  /** The starting language: the stored preference when it is usable, Arabic otherwise. */
  function InitialLang(stored: Option<string>): (lang: string)
    ensures Usable(stored) ==> lang == stored.value
    ensures !Usable(stored) ==> lang == DefaultLang
    ensures lang != ""
  {
    match stored
    case Some(s) => if s != "" then s else DefaultLang
    case None => DefaultLang
  }

  /** Direction, root language and title chosen for `lang`: Arabic or, for every other code, English. */
  function RootFor(lang: string): (r: RootAttrs)
    ensures r.dir == "rtl" <==> lang == "ar"
    ensures r.dir == "ltr" <==> lang != "ar"
    ensures r.lang == (if r.dir == "rtl" then "ar" else "en")
    ensures r.title == ArabicTitle <==> lang == "ar"
    ensures r.title == EnglishTitle <==> lang != "ar"
  {
    if lang == "ar" then RootAttrs("rtl", "ar", ArabicTitle)
    else RootAttrs("ltr", "en", EnglishTitle)
  }

  /** An ASCII capital letter. */
  predicate IsUpper(c: char)
  {
    'A' <= c <= 'Z'
  }

  /**
   * ASCII lower-casing, as an HTML document applies to the attribute name
   * passed to an attribute lookup; every other character is kept.
   */
  function AsciiLower(s: string): (r: string)
    ensures |r| == |s|
    ensures forall i :: 0 <= i < |s| ==> !IsUpper(r[i])
    ensures forall i :: 0 <= i < |s| && !IsUpper(s[i]) ==> r[i] == s[i]
    ensures forall i :: 0 <= i < |s| && IsUpper(s[i]) ==> r[i] as int == s[i] as int + 32
  {
    seq(|s|, i requires 0 <= i < |s| => if IsUpper(s[i]) then (s[i] as int + 32) as char else s[i])
  }

  /** Lower-casing is idempotent, and a code without ASCII capitals is its own lower-case form. */
  lemma AsciiLowerFixed(s: string)
    ensures AsciiLower(AsciiLower(s)) == AsciiLower(s)
    ensures (forall i :: 0 <= i < |s| ==> !IsUpper(s[i])) ==> AsciiLower(s) == s
  {
    var once := AsciiLower(s);
    assert forall i :: 0 <= i < |s| ==> AsciiLower(once)[i] == once[i];
  }

  /**
   * The element's `data-<lang>` attribute: the code is lower-cased before the
   * lookup; None when the attribute is missing.
   */
  function Attribute(e: Element, lang: string): Option<string>
  {
    var key := AsciiLower(lang);
    if key in e.variants then Some(e.variants[key]) else None
  }

  /** The element after the presenter's text update for `lang`. */
  function Translate(e: Element, lang: string): (r: Element)
    ensures r.variants == e.variants
    ensures var key := AsciiLower(lang);
      key in e.variants && e.variants[key] != "" ==> r.text == e.variants[key]
    ensures var key := AsciiLower(lang);
      !(key in e.variants && e.variants[key] != "") ==> r.text == e.text
  {
    var text := Attribute(e, lang);
    if text.Some? && text.value != "" then e.(text := text.value) else e
  }

  /**
   * Whether the presenter's text update visits the element at all: it visits
   * exactly the elements carrying an English or an Arabic text attribute,
   * whatever code is presented.
   */
  predicate Listed(e: Element)
  {
    "en" in e.variants || "ar" in e.variants
  }

  /** The text update of an element the page finds by class, which it visits only when listed. */
  function TranslateIfListed(e: Element, lang: string): (r: Element)
    ensures r.variants == e.variants
    ensures Listed(e) ==> r == Translate(e, lang)
    ensures !Listed(e) ==> r == e
  {
    if Listed(e) then Translate(e, lang) else e
  }

  /**
   * For English and Arabic the visiting rule makes no difference, since an
   * unlisted element has no text for either; for another code an unlisted
   * element keeps its text even when it carries a text for that code.
   */
  lemma ListedOnlyMattersForOtherCodes(e: Element, lang: string)
    ensures lang == "en" || lang == "ar" ==> TranslateIfListed(e, lang) == Translate(e, lang)
    ensures !Listed(e) ==> TranslateIfListed(e, lang).text == e.text
  {
    assert AsciiLower("en") == "en";
    assert AsciiLower("ar") == "ar";
  }

  /** The button after the presenter's class update for `lang`. */
  function Activate(b: LangButton, lang: string): (r: LangButton)
    ensures r.lang == b.lang
    ensures r.active <==> b.lang == lang
  {
    LangButton(b.lang, b.lang == lang)
  }

  /** The buttons after the presenter's class update: exactly those for `lang` are active. */
  function PresentButtons(bs: seq<LangButton>, lang: string): (r: seq<LangButton>)
    ensures |r| == |bs|
    ensures forall i :: 0 <= i < |bs| ==> r[i].lang == bs[i].lang && (r[i].active <==> bs[i].lang == lang)
  {
    seq(|bs|, i requires 0 <= i < |bs| => Activate(bs[i], lang))
  }

  /** Exactly the buttons whose `data-lang` is `lang` carry `active`. */
  predicate Marked(bs: seq<LangButton>, lang: string)
  {
    forall i :: 0 <= i < |bs| ==> (bs[i].active <==> bs[i].lang == lang)
  }

  /** The buttons already marked for `lang` are exactly those the class update leaves as they are. */
  lemma MarkedIffFixed(bs: seq<LangButton>, lang: string)
    ensures Marked(bs, lang) <==> PresentButtons(bs, lang) == bs
  {
    if Marked(bs, lang) {
      assert forall i :: 0 <= i < |bs| ==> PresentButtons(bs, lang)[i] == bs[i];
    }
  }

  /** The elements after the presenter's text update: each takes its `data-<lang>` text when that is non-empty. */
  function PresentElements(es: seq<Element>, lang: string): (r: seq<Element>)
    ensures |r| == |es|
    ensures forall i :: 0 <= i < |es| ==>
      r[i].variants == es[i].variants &&
      r[i].text == (var key := AsciiLower(lang);
                    if key in es[i].variants && es[i].variants[key] != "" then es[i].variants[key] else es[i].text)
  {
    seq(|es|, i requires 0 <= i < |es| => Translate(es[i], lang))
  }

  /** The whole visible effect of `updateLanguage(lang)`. */
  function Present(d: Document, lang: string): (r: Document)
    ensures r.root == RootFor(lang)
    ensures r.buttons == PresentButtons(d.buttons, lang) && r.elements == PresentElements(d.elements, lang)
    ensures r.description == TranslateIfListed(d.description, lang) && r.progressLabel == TranslateIfListed(d.progressLabel, lang)
  {
    Document(RootFor(lang), PresentButtons(d.buttons, lang), PresentElements(d.elements, lang),
             TranslateIfListed(d.description, lang), TranslateIfListed(d.progressLabel, lang))
  }

  /** Translating an element twice to the same language gives what translating it once gives. */
  lemma TranslateIdempotent(e: Element, lang: string)
    ensures Translate(Translate(e, lang), lang) == Translate(e, lang)
  {
  }

  /** The same for an element found by class, whose attributes decide whether it is visited at all. */
  lemma TranslateIfListedIdempotent(e: Element, lang: string)
    ensures TranslateIfListed(TranslateIfListed(e, lang), lang) == TranslateIfListed(e, lang)
  {
    TranslateIdempotent(e, lang);
  }

  /** Marking the buttons for the same language twice gives what marking them once gives. */
  lemma PresentButtonsIdempotent(bs: seq<LangButton>, lang: string)
    ensures PresentButtons(PresentButtons(bs, lang), lang) == PresentButtons(bs, lang)
  {
    var once := PresentButtons(bs, lang);
    assert forall i :: 0 <= i < |bs| ==> PresentButtons(once, lang)[i] == once[i];
  }

  /** Translating the elements to the same language twice gives what translating them once gives. */
  lemma PresentElementsIdempotent(es: seq<Element>, lang: string)
    ensures PresentElements(PresentElements(es, lang), lang) == PresentElements(es, lang)
  {
    var once := PresentElements(es, lang);
    assert forall i :: 0 <= i < |es| ==> PresentElements(once, lang)[i] == once[i];
  }

  /** Presenting the same language twice leaves the page as presenting it once. */
  lemma PresentIdempotent(d: Document, lang: string)
    ensures Present(Present(d, lang), lang) == Present(d, lang)
  {
    PresentButtonsIdempotent(d.buttons, lang);
    PresentElementsIdempotent(d.elements, lang);
    TranslateIfListedIdempotent(d.description, lang);
    TranslateIfListedIdempotent(d.progressLabel, lang);
  }

  /** Presenting a language makes the result independent of which buttons were active before. */
  lemma PresentForgetsActive(d: Document, e: Document, lang: string)
    requires |d.buttons| == |e.buttons|
    requires forall i :: 0 <= i < |d.buttons| ==> d.buttons[i].lang == e.buttons[i].lang
    ensures Present(d, lang).buttons == Present(e, lang).buttons
  {
    assert forall i :: 0 <= i < |d.buttons| ==> Present(d, lang).buttons[i] == Present(e, lang).buttons[i];
  }

  /** With distinct `data-lang` values, at most one button is active after presenting. */
  lemma PresentActiveExclusive(d: Document, lang: string)
    requires forall p, q :: 0 <= p < q < |d.buttons| ==> d.buttons[p].lang != d.buttons[q].lang
    ensures forall p, q :: 0 <= p < q < |d.buttons| ==>
      !(Present(d, lang).buttons[p].active && Present(d, lang).buttons[q].active)
  {
  }

  /**
   * The text update ignores the case of the code while the root, the title
   * and the buttons compare it exactly: presenting `AR` shows the Arabic
   * texts in a left-to-right, English-titled page with no active button.
   */
  lemma CapitalisedCodeMixesLanguages(d: Document)
    requires forall i :: 0 <= i < |d.buttons| ==> d.buttons[i].lang == "ar" || d.buttons[i].lang == "en"
    ensures Present(d, "AR").root == RootFor("en")
    ensures Present(d, "AR").elements == PresentElements(d.elements, "ar")
    ensures forall i :: 0 <= i < |d.buttons| ==> !Present(d, "AR").buttons[i].active
  {
    assert AsciiLower("AR") == "ar" == AsciiLower("ar");
    assert forall i :: 0 <= i < |d.elements| ==> Translate(d.elements[i], "AR") == Translate(d.elements[i], "ar");
  }
}

=== FILE: page.dfy ===
/**
 * The page script's state after `DOMContentLoaded`: the closure variables of
 * the handler and the parts of the document it writes. Every timer callback,
 * click, scroll event and animation frame is a method; a callback can only
 * run while one is pending, and the pending callbacks are counted.
 */
module ComingSoon {
  import opened Wrappers
  import Language
  import Typewriter
  import ProgressSim
  import ScrollThrottle

  class Page {
    /** The `dir` and `lang` attributes of `<html>`, and `document.title`. */
    var dir: string
    var langAttr: string
    var title: string
    /**
     * The `.lang-btn` controls, and the elements carrying an English or an
     * Arabic text attribute other than the description and the progress label.
     */
    const buttons: array<Language.LangButton>
    const elements: array<Language.Element>
    /**
     * The `.description` and `.progress-text` elements. Either takes part in
     * the presenter's text update only when it carries an English or an
     * Arabic text attribute, since only such elements are collected.
     */
    var description: Language.Element
    var progressLabel: Language.Element
    /** The language preference kept in local storage. */
    var stored: Option<string>
    var currentLang: string

    var originalText: string
    var charIndex: nat
    /** Pending `typeWriter` and `updateTypingEffect` timers. */
    var typeSteps: nat
    var typingRestarts: nat

    var currentProgress: real
    var currentMessageIndex: nat
    /** The inline width of `.progress-fill`, in percent; None until first set. */
    var fillWidth: Option<real>
    /** Whether an `updateProgress` timer is pending. */
    var progressScheduled: bool

    var ticking: bool
    var lastScrollTime: int
    /** Requested animation frames whose callback has not run. */
    var framesPending: nat

    /** The document root's attributes and the title. */
    ghost function Root(): Language.RootAttrs
      reads this`dir, this`langAttr, this`title
    {
      Language.RootAttrs(dir, langAttr, title)
    }

    /** Everything `updateLanguage` writes, as one value. */
    ghost function Shown(): Language.Document
      reads this`dir, this`langAttr, this`title, this`description, this`progressLabel, buttons, elements
    {
      Language.Document(Root(), buttons[..], elements[..], description, progressLabel)
    }

    ghost function Typing(): Typewriter.Typing
      reads this`originalText, this`charIndex, this`description
    {
      Typewriter.Typing(originalText, charIndex, description.text)
    }

    ghost function Meter(): ProgressSim.Meter
      reads this`currentProgress, this`currentMessageIndex, this`fillWidth, this`progressLabel
    {
      ProgressSim.Meter(currentProgress, currentMessageIndex, fillWidth, progressLabel.text)
    }

    ghost function Throttle(): ScrollThrottle.Throttle
      reads this`lastScrollTime, this`ticking, this`framesPending
    {
      ScrollThrottle.Throttle(lastScrollTime, ticking, framesPending)
    }

    /**
     * The root and the buttons show `currentLang`, and a usable stored value
     * is `currentLang`.
     */
    ghost predicate LanguageShown()
      reads this`dir, this`langAttr, this`title, this`currentLang, this`stored, buttons
    {
      Root() == Language.RootFor(currentLang) &&
      Language.Marked(buttons[..], currentLang) &&
      (Language.Usable(stored) ==> stored.value == currentLang)
    }

    /** The typewriter shows a prefix of its target whenever no restart is pending. */
    ghost predicate TypingValid()
      reads this`originalText, this`charIndex, this`typingRestarts, this`description
    {
      charIndex <= |originalText| &&
      (typingRestarts == 0 ==> Typewriter.Coherent(Typing()))
    }

    /** Progress is within its bounds, and only a finished simulator has no pending tick. */
    ghost predicate ProgressValid()
      reads this`currentProgress, this`currentMessageIndex, this`fillWidth, this`progressScheduled
    {
      ProgressSim.Bounded(currentProgress, currentMessageIndex, fillWidth) &&
      (!progressScheduled ==> currentProgress >= ProgressSim.Cap)
    }

    /**
     * The page invariant. The timer, scroll and frame methods each keep the
     * part for their own component and, by their frames, leave the other
     * parts' state untouched.
     */
    ghost predicate Valid()
      reads this, buttons
    {
      LanguageShown() && TypingValid() && ProgressValid() && ScrollThrottle.Valid(Throttle())
    }

    /**
     * The page as parsed, before the `DOMContentLoaded` handler runs: the
     * markup's buttons and elements, the stored preference, and the handler's
     * variables at their declared initial values.
     */
    constructor (langButtons: array<Language.LangButton>, withData: array<Language.Element>,
                 descriptionElement: Language.Element, progressTextElement: Language.Element, saved: Option<string>)
      requires forall k :: 0 <= k < withData.Length ==> Language.Listed(withData[k])
      ensures buttons == langButtons && elements == withData
      ensures description == descriptionElement && progressLabel == progressTextElement
      ensures stored == saved && currentLang == Language.InitialLang(saved)
      ensures Initial()
    {
      buttons, elements := langButtons, withData;
      description, progressLabel := descriptionElement, progressTextElement;
      stored := saved;
      currentLang := Language.InitialLang(saved);
      dir, langAttr, title := "", "", "";
      originalText, charIndex, typeSteps, typingRestarts := "", 0, 0, 0;
      currentProgress, currentMessageIndex, fillWidth, progressScheduled := 0.0, 0, None, false;
      ticking, lastScrollTime, framesPending := false, 0, 0;
    }

    /** Nothing has run yet: no timer is pending and every counter is at its initial value. */
    ghost predicate Initial()
      reads this
    {
      currentLang == Language.InitialLang(stored) &&
      originalText == [] && charIndex == 0 && typeSteps == 0 && typingRestarts == 0 &&
      currentProgress == 0.0 && currentMessageIndex == 0 && fillWidth == None && !progressScheduled &&
      Throttle() == ScrollThrottle.Throttle(0, false, 0)
    }

    /**
     * The `DOMContentLoaded` handler up to the listeners: the initial
     * language is presented without a typing restart, the first progress
     * timer is set, the description becomes the typewriter's target and is
     * cleared, and the first typewriter timer is set.
     */
    method ContentLoaded()
      requires Initial()
      modifies this`dir, this`langAttr, this`title, this`description, this`progressLabel, buttons, elements,
               this`progressScheduled, this`originalText, this`charIndex, this`typeSteps
      ensures Valid()
      ensures buttons[..] == Language.PresentButtons(old(buttons[..]), currentLang)
      ensures elements[..] == Language.PresentElements(old(elements[..]), currentLang)
      ensures var shown := Language.TranslateIfListed(old(description), currentLang);
        description == shown.(text := []) && Typing() == Typewriter.Typing(shown.text, 0, [])
      ensures progressLabel == Language.TranslateIfListed(old(progressLabel), currentLang)
      ensures typeSteps == 1 && typingRestarts == 0 && progressScheduled
    {
      PresentCurrent();
      StartTimers();
    }

    /** The handler's timers: the first progress tick, and the typewriter started on the description. */
    method StartTimers()
      requires ProgressSim.Bounded(currentProgress, currentMessageIndex, fillWidth)
      modifies this`progressScheduled, this`originalText, this`charIndex, this`description, this`typeSteps
      ensures ProgressValid() && TypingValid() && progressScheduled
      ensures Typing() == Typewriter.Typing(old(description.text), 0, [])
      ensures description == old(description).(text := [])
      ensures typeSteps == old(typeSteps) + 1
    {
      progressScheduled := true;
      StartTypewriter();
    }

    /** `updateLanguage(currentLang)` as the handler's first step: the result shows `currentLang`. */
    method PresentCurrent()
      requires Language.Usable(stored) ==> stored.value == currentLang
      modifies this`dir, this`langAttr, this`title, this`description, this`progressLabel, buttons, elements
      ensures LanguageShown()
      ensures buttons[..] == Language.PresentButtons(old(buttons[..]), currentLang)
      ensures elements[..] == Language.PresentElements(old(elements[..]), currentLang)
      ensures description == Language.TranslateIfListed(old(description), currentLang)
      ensures progressLabel == Language.TranslateIfListed(old(progressLabel), currentLang)
    {
      UpdateLanguage(currentLang);
    }

    /** Take the description's text as the typewriter's target, clear it, and schedule the first step. */
    method StartTypewriter()
      modifies this`originalText, this`charIndex, this`description, this`typeSteps
      ensures Typing() == Typewriter.Typing(old(description.text), 0, [])
      ensures description == old(description).(text := [])
      ensures typeSteps == old(typeSteps) + 1
      ensures TypingValid()
    {
      originalText := description.text;
      description := description.(text := []);
      charIndex := 0;
      typeSteps := typeSteps + 1;
    }

    /** The original `updateLanguage(lang)`: root attributes, button classes, element texts, title. */
    method UpdateLanguage(lang: string)
      modifies this`dir, this`langAttr, this`title, this`description, this`progressLabel, buttons, elements
      ensures Root() == Language.RootFor(lang)
      ensures buttons[..] == Language.PresentButtons(old(buttons[..]), lang)
      ensures elements[..] == Language.PresentElements(old(elements[..]), lang)
      ensures description == Language.TranslateIfListed(old(description), lang)
      ensures progressLabel == Language.TranslateIfListed(old(progressLabel), lang)
      ensures Shown() == Language.Present(old(Shown()), lang)
    {
      if lang == "ar" {
        dir, langAttr := "rtl", "ar";
      } else {
        dir, langAttr := "ltr", "en";
      }
      MarkActive(lang);
      TranslateTexts(lang);
      if lang == "ar" {
        title := Language.ArabicTitle;
      } else {
        title := Language.EnglishTitle;
      }
    }

    /** The button loop of `updateLanguage`: clear `active`, then set it where `data-lang` matches. */
    method MarkActive(lang: string)
      modifies buttons
      ensures buttons[..] == Language.PresentButtons(old(buttons[..]), lang)
    {
      var i := 0;
      while i < buttons.Length
        invariant 0 <= i <= buttons.Length
        invariant forall k :: 0 <= k < i ==> buttons[k] == Language.Activate(old(buttons[k]), lang)
        invariant forall k :: i <= k < buttons.Length ==> buttons[k] == old(buttons[k])
      {
        buttons[i] := buttons[i].(active := false);
        if buttons[i].lang == lang {
          buttons[i] := buttons[i].(active := true);
        }
        i := i + 1;
      }
      assert buttons[..] == Language.PresentButtons(old(buttons[..]), lang);
    }

    /** The text loop of `updateLanguage`, over every element carrying per-language text. */
    method TranslateTexts(lang: string)
      modifies this`description, this`progressLabel, elements
      ensures elements[..] == Language.PresentElements(old(elements[..]), lang)
      ensures description == Language.TranslateIfListed(old(description), lang)
      ensures progressLabel == Language.TranslateIfListed(old(progressLabel), lang)
    {
      var j := 0;
      while j < elements.Length
        modifies elements
        invariant 0 <= j <= elements.Length
        invariant forall k :: 0 <= k < j ==> elements[k] == Language.Translate(old(elements[k]), lang)
        invariant forall k :: j <= k < elements.Length ==> elements[k] == old(elements[k])
      {
        var text := Language.Attribute(elements[j], lang);
        if text.Some? && text.value != "" {
          elements[j] := elements[j].(text := text.value);
        }
        j := j + 1;
      }
      assert elements[..] == Language.PresentElements(old(elements[..]), lang);
      if Language.Listed(description) {
        var text := Language.Attribute(description, lang);
        if text.Some? && text.value != "" {
          description := description.(text := text.value);
        }
      }
      if Language.Listed(progressLabel) {
        var text := Language.Attribute(progressLabel, lang);
        if text.Some? && text.value != "" {
          progressLabel := progressLabel.(text := text.value);
        }
      }
    }

    /** The wrapper installed over `updateLanguage`: present, record, and schedule a typing restart. */
    method SwitchLanguage(lang: string)
      requires Valid()
      modifies this`dir, this`langAttr, this`title, this`description, this`progressLabel, this`currentLang,
               this`typingRestarts, buttons, elements
      ensures Root() == Language.RootFor(lang)
      ensures buttons[..] == Language.PresentButtons(old(buttons[..]), lang)
      ensures elements[..] == Language.PresentElements(old(elements[..]), lang)
      ensures description == Language.TranslateIfListed(old(description), lang)
      ensures progressLabel == Language.TranslateIfListed(old(progressLabel), lang)
      ensures currentLang == lang && typingRestarts == old(typingRestarts) + 1
      ensures !Language.Usable(stored) || stored.value == lang ==> Valid()
    {
      UpdateLanguage(lang);
      currentLang := lang;
      typingRestarts := typingRestarts + 1;
    }

    /**
     * A click on language button `i`: present its `data-lang`, then store it,
     * so that a reload starts in the chosen language when its code is non-empty.
     */
    method Click(i: nat)
      requires Valid() && i < buttons.Length
      modifies this`dir, this`langAttr, this`title, this`description, this`progressLabel, this`currentLang,
               this`stored, this`typingRestarts, buttons, elements
      ensures Valid()
      ensures var lang := old(buttons[i].lang);
        Root() == Language.RootFor(lang) &&
        buttons[..] == Language.PresentButtons(old(buttons[..]), lang) &&
        elements[..] == Language.PresentElements(old(elements[..]), lang) &&
        description == Language.TranslateIfListed(old(description), lang) &&
        progressLabel == Language.TranslateIfListed(old(progressLabel), lang) &&
        currentLang == lang && stored == Some(lang) && typingRestarts == old(typingRestarts) + 1
      ensures currentLang != "" ==> Language.InitialLang(stored) == currentLang
    {
      var selected := buttons[i].lang;
      SwitchLanguage(selected);
      stored := Some(selected);
    }

    /** A `typeWriter` timer firing. */
    method TypeStep()
      requires TypingValid() && typeSteps > 0
      modifies this`charIndex, this`typeSteps, this`description
      ensures TypingValid()
      ensures Typing() == Typewriter.Step(old(Typing()))
      ensures description.variants == old(description.variants)
      ensures typeSteps == old(typeSteps) - 1 + (if Typewriter.Continues(old(Typing())) then 1 else 0)
    {
      typeSteps := typeSteps - 1;
      if charIndex < |originalText| {
        description := description.(text := description.text + [originalText[charIndex]]);
        charIndex := charIndex + 1;
        typeSteps := typeSteps + 1;
      }
    }

    /** An `updateTypingEffect` timer firing: retype the description from the start. */
    method RestartTyping()
      requires TypingValid() && typingRestarts > 0
      modifies this`originalText, this`charIndex, this`description, this`typeSteps, this`typingRestarts
      ensures TypingValid()
      ensures Typing() == Typewriter.Restart(old(Typing()))
      ensures description.variants == old(description.variants)
      ensures typeSteps == old(typeSteps) + 1 && typingRestarts == old(typingRestarts) - 1
    {
      originalText := description.text;
      description := description.(text := []);
      charIndex := 0;
      typeSteps := typeSteps + 1;
      typingRestarts := typingRestarts - 1;
    }

    /**
     * An `updateProgress` timer firing, with `grow` and `coin` its two
     * `Math.random()` draws; it reads the language current now.
     */
    method ProgressTick(grow: real, coin: real)
      requires ProgressValid() && progressScheduled
      requires ProgressSim.Draw(grow) && ProgressSim.Draw(coin) && ProgressSim.Supported(currentLang)
      modifies this`currentProgress, this`currentMessageIndex, this`fillWidth, this`progressScheduled,
               this`progressLabel
      ensures ProgressValid()
      ensures Meter() == ProgressSim.Tick(old(Meter()), currentLang, grow, coin)
      ensures progressLabel.variants == old(progressLabel.variants)
      ensures progressScheduled == ProgressSim.Reschedules(old(Meter()))
    {
      progressScheduled := false;
      if currentProgress < ProgressSim.Cap {
        currentProgress := currentProgress + grow * 2.0;
        fillWidth := Some(ProgressSim.MinReal(currentProgress, ProgressSim.Cap));
        var messages := ProgressSim.Messages(currentLang);
        if coin < 0.1 && currentMessageIndex < |messages| - 1 {
          currentMessageIndex := currentMessageIndex + 1;
          progressLabel := progressLabel.(text := messages[currentMessageIndex]);
        }
        progressScheduled := true;
      }
    }

    /** A scroll event at time `now`. */
    method Scroll(now: int)
      requires ScrollThrottle.Valid(Throttle())
      modifies this`lastScrollTime, this`ticking, this`framesPending
      ensures ScrollThrottle.Valid(Throttle())
      ensures Throttle() == ScrollThrottle.OnScroll(old(Throttle()), now)
    {
      if now - lastScrollTime > ScrollThrottle.Gap {
        UpdateAnimations();
        lastScrollTime := now;
      }
    }

    /** `updateAnimations`: request a frame unless one is outstanding. */
    method UpdateAnimations()
      modifies this`ticking, this`framesPending
      ensures Throttle() == ScrollThrottle.UpdateAnimations(old(Throttle()))
    {
      if !ticking {
        framesPending := framesPending + 1;
        ticking := true;
      }
    }

    /** The requested animation frame's callback. */
    method AnimationFrame()
      requires ScrollThrottle.Valid(Throttle()) && framesPending > 0
      modifies this`ticking, this`framesPending
      ensures ScrollThrottle.Valid(Throttle())
      ensures Throttle() == ScrollThrottle.OnFrame(old(Throttle()))
    {
      framesPending := framesPending - 1;
      ticking := false;
    }
  }
}

=== FILE: progress.dfy ===
/**
 * The simulated progress bar: a value that grows by a random amount on each
 * tick until it reaches 75, the rendered fill width, and an index into the
 * active language's list of five status messages.
 */
module ProgressSim {
  import opened Wrappers

  /** Progress stops being advanced at this value; the fill never shows more. */
  const Cap: real := 75.0

  const EnglishMessages: seq<string> := [
    "Development in Progress",
    "Building Core Features",
    "Optimizing Performance",
    "Final Testing Phase",
    "Almost Ready!"
  ]

  const ArabicMessages: seq<string> := [
    "التطوير قيد التقدم",
    "بناء الميزات الأساسية",
    "تحسين الأداء",
    "مرحلة الاختبار النهائية",
    "تقريباً جاهز!"
  ]

  predicate Supported(lang: string)
  {
    lang == "en" || lang == "ar"
  }

  /** The five status messages of a supported language, in the order they are shown. */
  function Messages(lang: string): (m: seq<string>)
    requires Supported(lang)
    ensures |m| == 5
  {
    if lang == "en" then EnglishMessages else ArabicMessages
  }

  /**
   * `currentProgress`, `currentMessageIndex`, the inline width of the fill
   * (None until the first tick sets it) and the text of the progress label.
   */
  datatype Meter = Meter(value: real, index: nat, width: Option<real>, text: string)

  /** Progress is non-negative and below `Cap + 2`, the index names one of five messages, the fill is within `Cap`. */
  ghost predicate Bounded(value: real, index: nat, width: Option<real>)
  {
    0.0 <= value < Cap + 2.0 &&
    index <= 4 &&
    (width.Some? ==> 0.0 <= width.value <= Cap)
  }

  ghost predicate Valid(m: Meter)
  {
    Bounded(m.value, m.index, m.width)
  }

  /** A draw of `Math.random()`. */
  predicate Draw(r: real)
  {
    0.0 <= r < 1.0
  }

  function MinReal(a: real, b: real): real { if a <= b then a else b }

  /** Whether a tick schedules the next tick: only one that ran below the cap. */
  predicate Reschedules(m: Meter)
  {
    m.value < Cap
  }

  /**
   * One `updateProgress` callback, with `grow` and `coin` the two random
   * draws it makes and `lang` the language current when it runs.
   */
  function Tick(m: Meter, lang: string, grow: real, coin: real): (r: Meter)
    requires Supported(lang) && Draw(grow) && Draw(coin)
    ensures !Reschedules(m) ==> r == m
    ensures Reschedules(m) ==> r.value == m.value + 2.0 * grow && r.width == Some(MinReal(r.value, Cap))
    ensures r.value >= m.value
    ensures r.index == m.index || (r.index == m.index + 1 && r.index < 5 && r.text == Messages(lang)[r.index])
    ensures r.index == m.index ==> r.text == m.text
    ensures r.index == m.index + 1 <==> Reschedules(m) && coin < 0.1 && m.index < 4
    ensures Valid(m) ==> Valid(r)
  {
    if m.value < Cap then
      var value := m.value + grow * 2.0;
      var width := Some(MinReal(value, Cap));
      if coin < 0.1 && m.index < |Messages(lang)| - 1 then
        Meter(value, m.index + 1, width, Messages(lang)[m.index + 1])
      else
        Meter(value, m.index, width, m.text)
    else m
  }

  /** The inputs of one tick. */
  datatype TickInput = TickInput(lang: string, grow: real, coin: real)

  predicate WellFormed(i: TickInput)
  {
    Supported(i.lang) && Draw(i.grow) && Draw(i.coin)
  }

  /** A sequence of ticks, each reading the language current at its own time. */
  function Run(m: Meter, ins: seq<TickInput>): Meter
    requires forall k :: 0 <= k < |ins| ==> WellFormed(ins[k])
    decreases |ins|
  {
    if |ins| == 0 then m
    else
      var i := ins[0];
      assert WellFormed(i);
      Run(Tick(m, i.lang, i.grow, i.coin), ins[1..])
  }

  /**
   * Over any sequence of ticks the state stays valid, progress never
   * decreases, the message index grows by at most one per tick, and once the
   * cap is reached nothing changes any more.
   */
  lemma {:induction false} RunBounded(m: Meter, ins: seq<TickInput>)
    requires Valid(m)
    requires forall k :: 0 <= k < |ins| ==> WellFormed(ins[k])
    ensures Valid(Run(m, ins))
    ensures Run(m, ins).value >= m.value
    ensures m.index <= Run(m, ins).index <= m.index + |ins|
    ensures !Reschedules(m) ==> Run(m, ins) == m
    decreases |ins|
  {
    if |ins| != 0 {
      var next := Tick(m, ins[0].lang, ins[0].grow, ins[0].coin);
      RunBounded(next, ins[1..]);
    }
  }

  /**
   * The language read by a tick decides only the message text: progress and
   * index are the same for either language, and a message advance shows the
   * message of the language current at that tick.
   */
  lemma LanguageSwitchKeepsProgress(m: Meter, grow: real, coin: real)
    requires Draw(grow) && Draw(coin)
    ensures Tick(m, "en", grow, coin).value == Tick(m, "ar", grow, coin).value
    ensures Tick(m, "en", grow, coin).index == Tick(m, "ar", grow, coin).index
    ensures Tick(m, "en", grow, coin).width == Tick(m, "ar", grow, coin).width
    ensures Reschedules(m) && coin < 0.1 && m.index < 4 ==>
      Tick(m, "ar", grow, coin).text == ArabicMessages[m.index + 1] &&
      Tick(m, "en", grow, coin).text == EnglishMessages[m.index + 1]
  {
  }
}

=== FILE: throttle.dfy ===
/**
 * The scroll throttle: a scroll event is let through only when more than
 * 16 ms have passed since the last one let through, and a let-through event
 * requests an animation frame only when none is outstanding.
 */
module ScrollThrottle {
  /** Events closer than this (in milliseconds) to the last accepted one are dropped. */
  const Gap: int := 16

  /** `lastScrollTime`, `ticking`, and the number of requested frames whose callback has not run yet. */
  datatype Throttle = Throttle(lastScrollTime: int, ticking: bool, framesPending: nat)

  /** `ticking` is set exactly while one frame is outstanding, and never more than one is. */
  ghost predicate Valid(s: Throttle)
  {
    s.framesPending <= 1 && (s.ticking <==> s.framesPending == 1)
  }

  /** Whether a scroll event at `now` gets past the time gate. */
  predicate Passes(s: Throttle, now: int)
  {
    now - s.lastScrollTime > Gap
  }

  /** `updateAnimations`: request a frame unless one is outstanding. */
  function UpdateAnimations(s: Throttle): (r: Throttle)
    ensures r.lastScrollTime == s.lastScrollTime && r.ticking
    ensures s.ticking ==> r == s
    ensures !s.ticking ==> r.framesPending == s.framesPending + 1
    ensures Valid(s) ==> Valid(r)
  {
    if !s.ticking then s.(ticking := true, framesPending := s.framesPending + 1) else s
  }

  /** The scroll listener, at time `now` (`Date.now()`). */
  function OnScroll(s: Throttle, now: int): (r: Throttle)
    ensures Passes(s, now) ==> r == UpdateAnimations(s).(lastScrollTime := now)
    ensures !Passes(s, now) ==> r == s
    ensures r.framesPending <= s.framesPending + 1
    ensures Valid(s) ==> Valid(r)
  {
    if now - s.lastScrollTime > Gap then UpdateAnimations(s).(lastScrollTime := now) else s
  }

  /** The `requestAnimationFrame` callback. */
  function OnFrame(s: Throttle): (r: Throttle)
    requires s.framesPending > 0
    ensures !r.ticking && r.lastScrollTime == s.lastScrollTime
    ensures r.framesPending == s.framesPending - 1
    ensures Valid(s) ==> Valid(r) && r.framesPending == 0
  {
    s.(ticking := false, framesPending := s.framesPending - 1)
  }

  /** How many of a sequence of scroll events get past the gate. */
  function Passed(s: Throttle, times: seq<int>): nat
    decreases |times|
  {
    if |times| == 0 then 0
    else (if Passes(s, times[0]) then 1 else 0) + Passed(OnScroll(s, times[0]), times[1..])
  }

  /** Events no later than `Gap` after the last accepted one all get dropped. */
  lemma {:induction false} NoneWithinGap(s: Throttle, times: seq<int>)
    requires forall k :: 0 <= k < |times| ==> times[k] - s.lastScrollTime <= Gap
    ensures Passed(s, times) == 0
    decreases |times|
  {
    if |times| != 0 {
      NoneWithinGap(OnScroll(s, times[0]), times[1..]);
    }
  }

  /** Of any burst of scroll events within one 16 ms window, at most one gets through. */
  lemma {:induction false} AtMostOnePerWindow(s: Throttle, times: seq<int>, start: int)
    requires forall k :: 0 <= k < |times| ==> start <= times[k] <= start + Gap
    ensures Passed(s, times) <= 1
    decreases |times|
  {
    if |times| != 0 {
      var next := OnScroll(s, times[0]);
      if Passes(s, times[0]) {
        NoneWithinGap(next, times[1..]);
      } else {
        AtMostOnePerWindow(next, times[1..], start);
      }
    }
  }
}

=== FILE: typewriter.dfy ===
/**
 * The typewriter effect on the page description: a target text, a cursor
 * (`charIndex`) and the text shown so far. Each timer callback reveals one
 * more character; a restart retypes whatever the description holds.
 */
module Typewriter {
  /** `originalText`, `charIndex` and the description's text content. */
  datatype Typing = Typing(original: string, index: nat, shown: string)

  /** The shown text is the first `index` characters of the target. */
  ghost predicate Coherent(t: Typing)
  {
    t.index <= |t.original| && t.shown == t.original[..t.index]
  }

  /** Whether a `typeWriter` callback reveals a character and schedules the next one. */
  predicate Continues(t: Typing)
  {
    t.index < |t.original|
  }

  /** One `typeWriter` callback. */
  function Step(t: Typing): (r: Typing)
    ensures r.original == t.original
    ensures Continues(t) ==> r.index == t.index + 1 && r.shown == t.shown + [t.original[t.index]]
    ensures !Continues(t) ==> r == t
    ensures Coherent(t) ==> Coherent(r)
  {
    if t.index < |t.original| then
      Typing(t.original, t.index + 1, t.shown + [t.original[t.index]])
    else t
  }

  /** `updateTypingEffect`: the current description becomes the target, and the display is cleared. */
  function Restart(t: Typing): (r: Typing)
    ensures r.original == t.shown && r.shown == [] && r.index == 0
    ensures Coherent(r)
  {
    Typing(t.shown, 0, [])
  }

  /** `n` consecutive callbacks. */
  function Steps(t: Typing, n: nat): Typing
    decreases n
  {
    if n == 0 then t else Steps(Step(t), n - 1)
  }

  function Min(a: int, b: int): int { if a <= b then a else b }

  /** After `n` callbacks a coherent run shows the first `index + n` characters, capped at the whole text. */
  lemma {:induction false} StepsReveal(t: Typing, n: nat)
    requires Coherent(t)
    ensures Steps(t, n).original == t.original
    ensures Steps(t, n).index == Min(t.index + n, |t.original|)
    ensures Steps(t, n).shown == t.original[..Min(t.index + n, |t.original|)]
    decreases n
  {
    if n > 0 {
      StepsReveal(Step(t), n - 1);
    }
  }

  /**
   * A restarted run on a text of length L shows the whole text after exactly
   * L callbacks, no callback before that is the last, and from then on a
   * callback neither changes anything nor schedules another.
   */
  lemma {:induction false} RunCompletes(t: Typing)
    ensures Steps(Restart(t), |t.shown|).shown == t.shown
    ensures !Continues(Steps(Restart(t), |t.shown|))
    ensures Step(Steps(Restart(t), |t.shown|)) == Steps(Restart(t), |t.shown|)
    ensures forall k :: 0 <= k < |t.shown| ==> Continues(Steps(Restart(t), k))
  {
    StepsReveal(Restart(t), |t.shown|);
    assert t.shown[..|t.shown|] == t.shown;
    forall k | 0 <= k < |t.shown|
      ensures Continues(Steps(Restart(t), k))
    {
      StepsReveal(Restart(t), k);
    }
  }

  /** Each callback of a run extends the shown text by exactly the next character of the target. */
  lemma {:induction false} RunExtends(t: Typing, k: nat)
    requires Coherent(t)
    requires t.index + k < |t.original|
    ensures Steps(t, k + 1).shown == Steps(t, k).shown + [t.original[t.index + k]]
  {
    StepsReveal(t, k);
    StepsReveal(t, k + 1);
    assert t.original[..t.index + k + 1] == t.original[..t.index + k] + [t.original[t.index + k]];
  }

  /**
   * Steps carry no run token: when the description is overwritten while a
   * run is unfinished, the pending callback still appends the old run's next
   * character, and the restart that follows retypes that character too.
   */
  lemma StaleStepBeforeRestart(t: Typing, replaced: string)
    requires Continues(t)
    ensures Restart(Step(t.(shown := replaced))).original == replaced + [t.original[t.index]]
  {
  }

  /** A finished run stays as it is under any number of callbacks. */
  lemma {:induction false} FinishedStaysPut(t: Typing, n: nat)
    requires !Continues(t)
    ensures Steps(t, n) == t
    decreases n
  {
    if n > 0 {
      FinishedStaysPut(Step(t), n - 1);
    }
  }

  /**
   * Two restarts with no callback between them take the cleared description
   * as the target: the description then stays blank under every later
   * callback. This is what two language changes less than 100 ms apart do
   * once typing has finished.
   */
  lemma DoubleRestartBlanks(t: Typing)
    ensures Restart(Restart(t)) == Typing([], 0, [])
    ensures forall n: nat :: Steps(Restart(Restart(t)), n).shown == []
  {
    forall n: nat
      ensures Steps(Restart(Restart(t)), n).shown == []
    {
      FinishedStaysPut(Restart(Restart(t)), n);
    }
  }

  /**
   * A restart while a run is unfinished, with a description the language
   * change did not overwrite, takes the partly typed prefix as the target:
   * the rest of the text is lost.
   */
  lemma UntranslatedRestartTruncates(t: Typing)
    requires Coherent(t) && Continues(t)
    ensures Restart(t).original == t.original[..t.index]
    ensures |Restart(t).original| < |t.original|
  {
  }

  /**
   * Two restarts with `k` callbacks between them, as when the earlier run was
   * still under way: the second restart keeps only what was typed between
   * the restarts, a prefix of the first restart's target.
   */
  lemma StepsBetweenRestartsKeepTyped(t: Typing, k: nat)
    ensures Restart(Steps(Restart(t), k)).original == t.shown[..Min(k, |t.shown|)]
  {
    StepsReveal(Restart(t), k);
  }
}

=== FILE: wrappers.dfy ===
/** Option, used for an attribute or a storage entry that may be absent (`null` in the page script). */
module Wrappers {
  datatype Option<+T> = None | Some(value: T)
}
